=== FILE: README.md ===
# URL shortener store — a Dafny model

This project models the short-code store of a small URL-shortening web service (`app.py`).
The service keeps one table mapping a short code to an original URL and a hit counter.
It has two operations:

- **Submit** (`index`, POST). The service strips the form fields and rejects a URL whose
  scheme is not `http` or `https` or whose network location is empty. It then claims the custom code (a
  code that is already taken is refused) or draws random 6-symbol codes until one is
  free; after more than 10 retries it draws 8-symbol codes instead. Finally it inserts
  the row and hands back `BASE_URL` (trailing `/` removed) + `/` + code.
- **Visit** (`redirect_code`). A known code redirects to its URL and gains one hit. If
  the counter update fails, the redirect still happens. An unknown code gives a 404.

The table is an immutable `map<string, Entry>` keyed by code. Each operation is a pure
function that returns its outcome together with the new table. The random source is a
finite stream of draws (positions in the 62-symbol alphabet). `urlparse` is a function
parameter that returns the scheme and network location, or `None` where it would raise.
Whether the counter update succeeds is a boolean parameter. The hit count a new row
starts with is a parameter too, because the table schema is not part of this model.

Modules and files:

- `optional.dfy` — `Optional`: the `Option` datatype (a missing form field, a failed parse).
- `text.dfy` — `Text`: Python's `strip()` / `rstrip(chars)` and the `str.isspace` character set.
- `codes.dfy` — `Codes`: `ALPHABET`, `generate_code`, and the candidate codes the allocation loop checks.
- `urls.dfy` — `Urls`: `is_valid_url` and the short-link string.
- `shortener.dfy` — `Shortener`: the table, random allocation (as a function and as the source's loop), submit and visit.
- `shortener_props.dfy` — `ShortenerProps`: lemmas that relate several operations, and the table invariant over any request sequence.

The switch to 8-symbol codes comes after 11 collisions, not 10. The loop increments
`tries` before it tests `tries > 10`, so the first code and the first 10 retries (11
candidates) have 6 symbols, and every candidate from the 12th on has 8
(`Codes.CandidateLengths`).

## Model

| member | source | states |
|---|---|---|
| Text.TrimStart | app.py:59-60 | The result is the suffix of the input left after removing the longest prefix of stripped characters: every dropped character is in the set, and the result is empty or starts with a character outside it. |
| Text.TrimEnd | app.py:86 | `rstrip(chars)`: the result is a prefix of the input, everything dropped is in the set, and the result is empty or ends with a character outside it. |
| Text.Strip | app.py:59-60 | `strip()` returns a contiguous part of the input with only whitespace cut off before and after it; that part is empty exactly when every character is whitespace, and otherwise starts and ends with a non-whitespace character. |
| Text.StripIdempotent | app.py:59-60 | Stripping an already stripped field changes nothing. |
| Text.StripIgnoresPadding | app.py:59-60 | Whitespace added before or after a field value does not change the stripped value. |
| Codes.AlphabetShape | app.py:43 | `ALPHABET` has 62 symbols, all ASCII letters or digits, pairwise distinct, and `IndexOf` recovers each symbol's position. |
| Codes.IndexOf | app.py:43 | Every ASCII letter and digit occurs in `ALPHABET`, at the returned position. |
| Codes.GenerateCode | app.py:45-46 | `generate_code(k)` returns exactly `k` characters, each from `ALPHABET`. |
| Codes.GenerateCodeRoundTrip | app.py:45-46 | Distinct draws give distinct codes, and every string over `ALPHABET` can be generated: generation and `Draws` are mutually inverse. |
| Codes.Candidate | app.py:74-80 | The code checked at a given retry count has 6 symbols while `tries <= 10` and 8 after, all from `ALPHABET`. |
| Codes.Candidates | app.py:74-80 | The sequence of candidates the loop can check is non-empty exactly when the draws cover the first attempt. |
| Codes.CandidateShape | app.py:74-80 | The candidate at position j of the sequence starting at a given retry count has the length that count plus j dictates, and uses only `ALPHABET`. |
| Codes.CandidateLengths | app.py:74-80 | The first code and the first 10 retries have 6 symbols; every later candidate has 8. |
| Urls.IsValidUrl | app.py:48-53 | A parse failure is "not valid", never an error; otherwise valid exactly when the scheme is `http` or `https` and the netloc is non-empty. |
| Urls.ShortLink | app.py:86 | The link ends with `/` + code; the part before that `/` is the base URL with only trailing `/` characters removed, and it does not itself end in `/`, so the join has no doubled slash. |
| Urls.LastSegment | app.py:91-92 | The last segment is the whole text after the final `/` (or all of it when there is none): a suffix with no `/`, preceded by a `/` unless it is the whole string. |
| Urls.BeforeQuery | app.py:91-92 | The part of a link that is routed is its prefix up to the first `?` or `#`, and contains neither. |
| Urls.RoutedCode | app.py:91-92 | What the route `/<code>` binds when a link is followed as written (the last segment of its path, the query and fragment removed) contains no `/`, `?` or `#`. |
| Urls.ShortLinkRoundTrip | app.py:60-92 | Following the short link binds the route to that same code, for a base URL without a query or fragment. This holds for every non-empty code that does not end in a space, is free of `/`, `\`, `?`, `#`, `%` and control characters, and is not `.` or `..`. |
| Urls.QueryCodeRoutesToPrefix | app.py:60-92 | A custom code containing `?`, which the service accepts, does not lead back to itself: its short link routes to the part before the `?`. |
| Urls.ShortLinkIgnoresTrailingSlash | app.py:86 | Adding a trailing `/` to the base URL does not change any short link. |
| Shortener.FieldValue | app.py:59-60 | A missing form field reads as empty. A submitted field yields a contiguous part of its text with only whitespace cut off on either side; the value never has whitespace at either end, and is empty exactly when the text was all whitespace. |
| Shortener.FirstFree | app.py:76 | Returns the position of the first candidate that is not a key of the table, with every earlier candidate taken; returns None exactly when every candidate is taken. |
| Shortener.FirstFreeCode | app.py:76 | Returns a candidate that is not a key of the table, or None exactly when every candidate is taken. |
| Shortener.RandomCode | app.py:74-80 | A random allocation that succeeds yields the first candidate, in draw order, that is not in the table: every earlier candidate collided. The code uses only `ALPHABET` and has 6 or 8 symbols. One that fails means every candidate the draws allow collided. |
| Shortener.LoopResultIsFirstFree | app.py:74-80 | Running the retry loop from any state (a code just drawn at a retry count, the draws left) returns the first free code among that code and every candidate still to come. |
| Shortener.Redraw | app.py:77-80 | One retry draws the candidate the retry count calls for: 6 symbols while `tries <= 10`, otherwise the 8 symbols drawn after the discarded 6. |
| Shortener.LoopFrom | app.py:74-80 | The loop started at any attempt returns the first free code among the candidates from that attempt on. |
| Shortener.GenerateFreeCode | app.py:74-80 | The source's retry loop computes exactly the code `RandomCode` describes, and that code is never already in the table. The loop keeps the `tries` counter, discards the 6-symbol draw once `tries > 10`, and redraws 8 symbols. |
| Shortener.Submit | app.py:61-87 | An invalid URL gives `InvalidUrl` and leaves the table unchanged, whatever the custom code is. A conflict happens exactly for a valid URL with a non-empty custom code already in the table. A valid URL with a free custom code is always created under that code. With no custom code it is created under the code the random allocation finds, and it is `Exhausted` exactly when that allocation finds none. A success inserts exactly one new code mapped to the URL, leaves every other row unchanged, and returns the short link for that code. Every failure leaves the table unchanged. |
| Shortener.Create | app.py:56-87 | The form fields are read (a missing field counts as empty) and stripped before use. A stripped URL that fails validation gives `InvalidUrl` and leaves the table unchanged. A conflict happens exactly for a valid URL with a non-empty stripped custom code already in the table. A free stripped custom code is created under exactly that code. With a valid URL and a blank custom code, the outcome is the random allocation's code, or `Exhausted` exactly when that allocation fails. A created row maps its code to the stripped URL and leaves every other row as it was. The code is non-empty, and neither the code nor the URL has surrounding whitespace. |
| Shortener.SubmitKeepsStripped | app.py:66-85 | Submitting stripped values inserts a non-empty code and a URL, neither with surrounding whitespace; a random code needs no stripping. |
| Shortener.Resolve | app.py:91-101 | An unknown code is not found and changes nothing. A known code redirects to its stored URL. Its hit count grows by one when the update succeeds and stays put when it fails. The set of codes and every URL stay the same, and no other row changes at all. |
| ShortenerProps.SubmitThenResolve | app.py:82-100 | A valid URL with a free custom code, or with no custom code when a free random code exists, is always created; visiting its code then redirects to exactly that URL, and the counter starts from the initial hit count. |
| ShortenerProps.RandomLinkResolves | app.py:74-100 | Following the short link returned for a random code binds the route to that code, so it redirects to the submitted URL (for a base URL without a query or fragment). |
| ShortenerProps.CreateIgnoresPadding | app.py:59-60 | Whitespace around the submitted URL or custom code does not change the outcome or the new table. |
| ShortenerProps.ResolveTwice | app.py:93-100 | Visiting a code twice gives the same answer both times; for a known code the hit count grows by the number of successful updates, and for an unknown code the table is unchanged. |
| ShortenerProps.CreatePreservesWellFormed | app.py:59-85 | A submission keeps every row well formed: non-empty stripped code, stripped URL that passes `is_valid_url`. |
| ShortenerProps.ResolvePreservesWellFormed | app.py:93-99 | A visit keeps every row well formed. |
| ShortenerProps.StepKeeps | app.py:66-99 | A single request never deletes a row, never changes its URL, and never lowers its hit count. |
| ShortenerProps.ServeNeverForgets | app.py:56-101 | Across any sequence of submissions and visits, a row is never deleted, its URL never changes and its hit count never decreases. |
| ShortenerProps.ServePreservesWellFormed | app.py:56-101 | Any sequence of submissions and visits keeps the table well formed. |

## Left out

- Flask routing, templates, `flash`, `redirect`/`url_for` and HTTP status codes. These are framework glue; outcomes are the datatypes `CreateOutcome` and `ResolveOutcome`.
- The sqlite helpers (`get_db`, `close_connection`, `query_db`, `execute_db`), `init_db`, `schema.sql` and the `__main__` block. These are storage and process I/O; the table is an in-memory map keyed by code. The source updates the counter by the row's `id`; since codes are unique, keying by code is the same thing.
- The table's default hit count and its column types. The schema is not part of this model, so the initial count is the parameter `initialHits`.
- The internals of `urllib.parse.urlparse`, including its lower-casing of the scheme. It is a foreign library; callers pass its result.
- The distribution of `random.choices` and the probability of a collision. The random source is a stream of draws, and every draw sequence is an input.
- Shortener.RandomCode: the source's loop never stops drawing; the model's stream of draws is finite, so running out of draws before a free code is found gives `Exhausted`, an outcome the source cannot produce.
- The check-then-insert race between concurrent requests. The model is sequential.
- Environment configuration (`DB_PATH`, `BASE_URL`, `PORT`, the secret key, the debug flag). The base URL is an input string.
- Restrictions on custom codes. The source accepts any non-empty stripped custom code, and the model does the same.
- Urls.ShortLinkRoundTrip: the link leads back to the code only for non-empty codes that do not end in a space, contain no `/`, `\`, `?`, `#`, `%` or control characters, and are not `.` or `..`. Every random code qualifies. A custom code such as `a?b` is accepted and stored, but the route binds `a` when its link is followed (`Urls.QueryCodeRoutesToPrefix`). A browser reads `\` as `/`, deletes tabs and line breaks, and trims control characters and spaces from either end of a link. The rule `/<code>` never binds an empty segment: the link of `""` ends in `/`, which `index` serves. A `%` starts an escape the server decodes, and a client resolves `.` and `..` away.
- Urls.RoutedCode: models the link as it is written. The browser's URL parsing (`\` read as `/`, tabs and line breaks deleted, control characters and spaces trimmed from either end, dot segments resolved) is not modelled, because it is client behaviour outside the service. The server's percent-decoding of the path (`/a%3Fb` binds `a?b`) is not modelled either, because it is framework code. `Urls.Routable` names the codes that neither of them changes.
- Urls.ShortLinkRoundTrip: `BASE_URL` is assumed to be the address at which the app's `/` is served. With a base URL that has a path, such as `http://h/p`, the link requests `/p/<code>`, which the rule `/<code>` matches only when the app is mounted at `/p`; the mount point is deployment configuration outside this model.
- Urls.ShortLinkRoundTrip: a base URL carrying its own `?` or `#` would turn the code into part of a query or fragment, so the round trip assumes the configured base URL has neither.
- ShortenerProps.RandomLinkResolves: stated for a base URL without `?` or `#`, for the reason above.

=== FILE: codes.dfy ===
/** Random short-code generation (app.py lines 42-46 and 73-80).

    Python's `random.choices(ALPHABET, k=n)` draws `n` positions in `ALPHABET`; the model
    receives those positions as a stream of draws, so that every choice the random source
    could make is an input. */
module Codes {

  /** The `n` consecutive characters starting at `first`. */
  function CharRange(first: char, n: nat): (r: string)
    requires first as int + n <= 0x7F
    ensures |r| == n
    ensures forall i :: 0 <= i < n ==> r[i] as int == first as int + i
  {
    if n == 0 then [] else CharRange(first, n - 1) + [(first as int + n - 1) as char]
  }

  /** `string.ascii_lowercase`, `string.ascii_uppercase` and `string.digits`. */
  const Lowercase: string := CharRange('a', 26)
  const Uppercase: string := CharRange('A', 26)
  const Digits: string := CharRange('0', 10)

  /** `ALPHABET = string.ascii_letters + string.digits`, where `ascii_letters` is the
      lower-case letters followed by the upper-case ones. */
  const Alphabet: string := Lowercase + Uppercase + Digits

  /** One draw of the random source: a position in `Alphabet`. */
  type Pick = i: int | 0 <= i < 62

  /** The characters that `Alphabet` holds: ASCII letters and decimal digits. */
  predicate IsAlnum(c: char) {
    'a' <= c <= 'z' || 'A' <= c <= 'Z' || '0' <= c <= '9'
  }

  /** Every character of `s` is drawn from `Alphabet`. */
  predicate OverAlphabet(s: string) {
    forall i :: 0 <= i < |s| ==> IsAlnum(s[i])
  }

  /** Where each kind of symbol sits in `Alphabet`: lower-case letters at 0-25, upper-case
      letters at 26-51, digits at 52-61, each run in code-point order. */
  lemma AlphabetLayout()
    ensures |Alphabet| == 62
    ensures forall i :: 0 <= i < 26 ==> Alphabet[i] as int == 'a' as int + i
    ensures forall i :: 26 <= i < 52 ==> Alphabet[i] as int == 'A' as int + (i - 26)
    ensures forall i :: 52 <= i < 62 ==> Alphabet[i] as int == '0' as int + (i - 52)
  {
    forall i | 0 <= i < 62
      ensures i < 26 ==> Alphabet[i] as int == 'a' as int + i
      ensures 26 <= i < 52 ==> Alphabet[i] as int == 'A' as int + (i - 26)
      ensures 52 <= i ==> Alphabet[i] as int == '0' as int + (i - 52)
    {
      if i < 26 {
        assert Alphabet[i] == Lowercase[i];
      } else if i < 52 {
        assert Alphabet[i] == Uppercase[i - 26];
      } else {
        assert Alphabet[i] == Digits[i - 52];
      }
    }
  }

  /** Position of an alphanumeric character in `Alphabet`. */
  function IndexOf(c: char): (i: Pick)
    requires IsAlnum(c)
    ensures i < |Alphabet| && Alphabet[i] == c
  {
    AlphabetLayout();
    if 'a' <= c <= 'z' then
      var i := c as int - 'a' as int;
      assert Alphabet[i] as int == c as int;
      i
    else if 'A' <= c <= 'Z' then
      var i := 26 + (c as int - 'A' as int);
      assert Alphabet[i] as int == c as int;
      i
    else
      var i := 52 + (c as int - '0' as int);
      assert Alphabet[i] as int == c as int;
      i
  }

  /** `Alphabet` has 62 symbols, each an ASCII letter or digit. */
  lemma AlphabetAlnum()
    ensures |Alphabet| == 62
    ensures forall i :: 0 <= i < |Alphabet| ==> IsAlnum(Alphabet[i])
  {
    AlphabetLayout();
  }

  /** `Alphabet` has 62 symbols, all alphanumeric and pairwise distinct. */
  lemma AlphabetShape()
    ensures |Alphabet| == 62
    ensures forall i :: 0 <= i < |Alphabet| ==> IsAlnum(Alphabet[i]) && IndexOf(Alphabet[i]) == i
    ensures forall i, j :: 0 <= i < j < |Alphabet| ==> Alphabet[i] != Alphabet[j]
  {
    AlphabetLayout();
    AlphabetAlnum();
  }

  /** `generate_code(length)`: the code spelled by the first `length` draws. */
  function GenerateCode(length: nat, draws: seq<Pick>): (code: string)
    requires length <= |draws|
    ensures |code| == length
    ensures OverAlphabet(code)
  {
    AlphabetAlnum();
    seq(length, i requires 0 <= i < length => Alphabet[draws[i]])
  }

  /** The draws that spell `code`: the inverse of `GenerateCode`. */
  function Draws(code: string): (draws: seq<Pick>)
    requires OverAlphabet(code)
    ensures |draws| == |code|
  {
    seq(|code|, i requires 0 <= i < |code| => IndexOf(code[i]))
  }

  /** Every sequence of draws spells a different code, and every code over `Alphabet`
      can be generated: `GenerateCode` and `Draws` are inverse to each other. */
  lemma GenerateCodeRoundTrip(draws: seq<Pick>, code: string)
    requires OverAlphabet(code)
    ensures Draws(GenerateCode(|draws|, draws)) == draws
    ensures GenerateCode(|code|, Draws(code)) == code
  {
    AlphabetShape();
    var g := GenerateCode(|draws|, draws);
    assert forall i :: 0 <= i < |draws| ==> Draws(g)[i] == IndexOf(Alphabet[draws[i]]);
  }

  /** Length of the candidate checked when the loop counter `tries` has the given value
      (0 is the code drawn before the loop): 6 until `tries > 10`, then 8. */
  function CandidateLength(tries: nat): nat {
    if tries > 10 then 8 else 6
  }

  /** Draws used by the attempt made at `tries`: once `tries > 10`, the loop still
      generates a 6-symbol code and then overwrites it with an 8-symbol one. */
  function DrawsUsed(tries: nat): nat {
    if tries > 10 then 6 + 8 else 6
  }

  /** The code checked at `tries`, spelled from the draws that attempt uses. */
  function Candidate(tries: nat, draws: seq<Pick>): (code: string)
    requires DrawsUsed(tries) <= |draws|
    ensures |code| == CandidateLength(tries)
    ensures OverAlphabet(code)
  {
    if tries > 10 then GenerateCode(8, draws[6..]) else GenerateCode(6, draws)
  }

  /** Every candidate the allocation loop can check, in order, starting at `tries`,
      for as long as the draws last. */
  function Candidates(draws: seq<Pick>, tries: nat): (cs: seq<string>)
    ensures |draws| >= DrawsUsed(tries) <==> cs != []
    decreases |draws|
  {
    if |draws| < DrawsUsed(tries) then []
    else [Candidate(tries, draws)] + Candidates(draws[DrawsUsed(tries)..], tries + 1)
  }

  /** The candidate at position `j` is the one checked at `tries + j`: it has the length
      that retry count dictates and uses only `Alphabet`. */
  lemma {:induction false} CandidateShape(draws: seq<Pick>, tries: nat, j: nat)
    requires j < |Candidates(draws, tries)|
    ensures |Candidates(draws, tries)[j]| == CandidateLength(tries + j)
    ensures OverAlphabet(Candidates(draws, tries)[j])
    decreases |draws|
  {
    if j > 0 {
      CandidateShape(draws[DrawsUsed(tries)..], tries + 1, j - 1);
    }
  }

  /** The first eleven candidates (the first draw and ten retries) have 6 symbols,
      every later one 8. */
  lemma CandidateLengths(draws: seq<Pick>, j: nat)
    requires j < |Candidates(draws, 0)|
    ensures j <= 10 ==> |Candidates(draws, 0)[j]| == 6
    ensures j > 10 ==> |Candidates(draws, 0)[j]| == 8
  {
    CandidateShape(draws, 0, j);
  }
}

=== FILE: optional.dfy ===
/** The conventional Some/None datatype, used for the values the web layer may omit
    (a missing form field) and for results that may be absent (a failed parse). */
module Optional {

  datatype Option<+T> = None | Some(value: T) {

    /** The value held in Some, or `default` for None (Python's `dict.get(key, default)`). */
    function GetOr(default: T): (r: T)
      ensures Some? ==> r == value
      ensures None? ==> r == default
    {
      match this
      case Some(v) => v
      case None => default
    }
  }
}

=== FILE: shortener.dfy ===
/** The short-code store behind the two routes of app.py: creating a short link
    (`index`, lines 56-89) and resolving one (`redirect_code`, lines 91-101).

    The `urls` table becomes an immutable map from code to entry; each operation returns
    its outcome together with the store it leaves behind. */
module Shortener {
  import opened Optional
  import Text
  import opened Codes
  import opened Urls

  /** One row of the `urls` table: the destination and its hit counter. */
  datatype Entry = Entry(url: string, hits: nat)

  /** The `urls` table, keyed by its unique `code` column. */
  type Store = map<string, Entry>

  /** The submitted form: either field may be missing. */
  datatype Form = Form(originalUrl: Option<string>, customCode: Option<string>)

  /** What a submission leads to. `Exhausted` only arises because the model's random
      source is finite: it means the draws ran out before a free code was found. */
  datatype CreateOutcome =
    | Created(code: string, short: string)
    | InvalidUrl
    | CodeTaken
    | Exhausted

  /** What a visit to `/<code>` leads to: a redirect, or the 404 page. */
  datatype ResolveOutcome = Redirect(url: string) | NotFound

  /** `request.form.get(name, "").strip()` (app.py lines 59-60): a missing field reads
      as empty; a submitted one yields its text with only the surrounding whitespace cut
      off, so the value never has whitespace at either end. */
  function FieldValue(field: Option<string>): (v: string)
    ensures field.None? ==> v == []
    ensures field.Some? ==> exists i :: Text.Interior(field.value, v, i, Text.Whitespace)
    ensures v == [] || (v[0] !in Text.Whitespace && v[|v| - 1] !in Text.Whitespace)
    ensures field.Some? ==> (v == [] <==> Text.AllIn(field.value, Text.Whitespace))
  {
    match field
    case None => []
    case Some(text) => Text.Strip(text, Text.Whitespace)
  }

  /** The position of the first candidate that is not yet a code in `s`, if any: the
      collision check `query_db("SELECT * FROM urls WHERE code = ?")` applied to each
      candidate in turn. */
  function FirstFree(s: Store, cands: seq<string>): (k: Option<nat>)
    ensures k.Some? ==>
      && k.value < |cands|
      && cands[k.value] !in s
      && forall j :: 0 <= j < k.value ==> cands[j] in s
    ensures k.None? <==> forall j :: 0 <= j < |cands| ==> cands[j] in s
  {
    if cands == [] then None
    else if cands[0] !in s then Some(0)
    else
      match FirstFree(s, cands[1..])
      case None => None
      case Some(k) => Some(k + 1)
  }

  /** The first candidate that is not yet a code in `s`, if any. */
  function FirstFreeCode(s: Store, cands: seq<string>): (code: Option<string>)
    ensures code.Some? ==> code.value in cands && code.value !in s
    ensures code.None? <==> forall j :: 0 <= j < |cands| ==> cands[j] in s
  {
    match FirstFree(s, cands)
    case Some(k) => Some(cands[k])
    case None => None
  }

  /** The code the random allocation loop settles on: the first candidate that does not
      collide, or None when every candidate the draws allow collides. */
  function RandomCode(s: Store, draws: seq<Pick>): (code: Option<string>)
    ensures code.Some? ==>
      && code.value !in s
      && OverAlphabet(code.value)
      && (|code.value| == 6 || |code.value| == 8)
    ensures code.None? ==> forall j :: 0 <= j < |Candidates(draws, 0)| ==> Candidates(draws, 0)[j] in s
    ensures code.Some? ==> exists k ::
      && 0 <= k < |Candidates(draws, 0)|
      && code.value == Candidates(draws, 0)[k]
      && forall j :: 0 <= j < k ==> Candidates(draws, 0)[j] in s
  {
    var cands := Candidates(draws, 0);
    match FirstFree(s, cands)
    case Some(k) => CandidateShape(draws, 0, k); Some(cands[k])
    case None => None
  }

  /** What the allocation loop of app.py lines 74-80 returns from the state where `code`
      was drawn at `tries` and the draws from `pos` on are still unused: `code` itself if
      it is free, otherwise the outcome of the next retry (None once the draws run out). */
  function LoopResult(s: Store, draws: seq<Pick>, pos: nat, tries: nat, code: string): Option<string>
    requires pos <= |draws|
    decreases |draws| - pos
  {
    if code !in s then Some(code)
    else if |draws| - pos < DrawsUsed(tries + 1) then None
    else LoopResult(s, draws, pos + DrawsUsed(tries + 1), tries + 1, Candidate(tries + 1, draws[pos..]))
  }

  /** A taken code at the head of the candidates is skipped. */
  lemma FirstFreeCodeSkip(s: Store, code: string, later: seq<string>)
    requires code in s
    ensures FirstFreeCode(s, [code] + later) == FirstFreeCode(s, later)
  {
    assert ([code] + later)[1..] == later;
  }

  /** The loop, run from any state, returns the first free code among the one just drawn
      and every candidate still to come. */
  lemma {:induction false} LoopResultIsFirstFree(s: Store, draws: seq<Pick>, pos: nat, tries: nat, code: string)
    requires pos <= |draws|
    ensures LoopResult(s, draws, pos, tries, code) ==
      FirstFreeCode(s, [code] + Candidates(draws[pos..], tries + 1))
    decreases |draws| - pos
  {
    var rest := draws[pos..];
    var later := Candidates(rest, tries + 1);
    if code !in s {
      assert FirstFree(s, [code] + later) == Some(0);
    } else if |rest| < DrawsUsed(tries + 1) {
      assert later == [];
      FirstFreeCodeSkip(s, code, later);
    } else {
      var next := Candidate(tries + 1, rest);
      var pos' := pos + DrawsUsed(tries + 1);
      assert rest[DrawsUsed(tries + 1)..] == draws[pos'..];
      assert later == [next] + Candidates(draws[pos'..], tries + 2);
      FirstFreeCodeSkip(s, code, later);
      LoopResultIsFirstFree(s, draws, pos', tries + 1, next);
    }
  }

  /** The body of one retry (app.py lines 77-80) once `tries` has been counted: draw a
      6-symbol code from the draws at `pos`, and when more than 10 retries were made,
      replace it by an 8-symbol code from the next draws. */
  method Redraw(draws: seq<Pick>, pos: nat, tries: nat) returns (code: string)
    requires pos + DrawsUsed(tries) <= |draws|
    ensures code == Candidate(tries, draws[pos..])
  {
    code := GenerateCode(6, draws[pos..]);
    if tries > 10 {
      code := GenerateCode(8, draws[pos + 6..]);
      assert draws[pos..][6..] == draws[pos + 6..];
    }
  }

  /** `RandomCode` is the first free code among all candidates. */
  lemma RandomCodeIsFirstFree(s: Store, draws: seq<Pick>)
    ensures RandomCode(s, draws) == FirstFreeCode(s, Candidates(draws, 0))
  {
    match FirstFree(s, Candidates(draws, 0)) {
      case Some(k) =>
      case None =>
    }
  }

  /** Running the loop from the attempt made at `tries` finds the first free code among
      the candidates from that attempt on. */
  lemma LoopFrom(s: Store, draws: seq<Pick>, tries: nat)
    requires DrawsUsed(tries) <= |draws|
    ensures LoopResult(s, draws, DrawsUsed(tries), tries, Candidate(tries, draws)) ==
      FirstFreeCode(s, Candidates(draws, tries))
  {
    var first := Candidate(tries, draws);
    assert Candidates(draws, tries) == [first] + Candidates(draws[DrawsUsed(tries)..], tries + 1);
    LoopResultIsFirstFree(s, draws, DrawsUsed(tries), tries, first);
  }

  /** Starting the loop on the first 6 draws computes `RandomCode`. */
  lemma LoopStart(s: Store, draws: seq<Pick>)
    requires 6 <= |draws|
    ensures LoopResult(s, draws, 6, 0, GenerateCode(6, draws)) == RandomCode(s, draws)
  {
    LoopFrom(s, draws, 0);
    RandomCodeIsFirstFree(s, draws);
  }

  /** The allocation loop as app.py writes it (lines 74-80): draw a 6-symbol code, and
      while it is taken draw again, counting the retries and switching to 8 symbols once
      more than 10 retries were made. It returns exactly the code `RandomCode` describes. */
  method GenerateFreeCode(s: Store, draws: seq<Pick>) returns (code: Option<string>)
    ensures code == RandomCode(s, draws)
    ensures code.Some? ==> code.value !in s
  {
    if |draws| < 6 {
      assert Candidates(draws, 0) == [];
      return None;
    }
    LoopStart(s, draws);
    ghost var result := RandomCode(s, draws);
    var c := GenerateCode(6, draws);
    var tries := 0;
    var pos := 6;
    while c in s
      invariant pos <= |draws|
      invariant LoopResult(s, draws, pos, tries, c) == result
      decreases |draws| - pos
    {
      if |draws| - pos < DrawsUsed(tries + 1) {
        return None;
      }
      tries := tries + 1;
      c := Redraw(draws, pos, tries);
      pos := pos + DrawsUsed(tries);
    }
    return Some(c);
  }

  /** The POST branch of `index` once both fields are stripped (lines 61-87): reject an
      invalid URL, then either claim the custom code (refusing one that exists) or
      allocate a random one, insert the new row with `initialHits` hits, and build the
      short link. `parse` stands for `urlparse`, `draws` for the random source. */
  function Submit(s: Store, original: string, custom: string, parse: string -> Option<UrlParts>,
                  baseUrl: string, draws: seq<Pick>, initialHits: nat): (r: (CreateOutcome, Store))
    ensures forall c :: c in s ==> c in r.1 && r.1[c] == s[c]
    ensures !IsValidUrl(parse(original)) ==> r == (InvalidUrl, s)
    ensures r.0 == CodeTaken <==> IsValidUrl(parse(original)) && custom != "" && custom in s
    ensures r.0.Created? ==>
      && IsValidUrl(parse(original))
      && r.0.code !in s
      && r.1 == s[r.0.code := Entry(original, initialHits)]
      && r.0.short == ShortLink(baseUrl, r.0.code)
    ensures r.0.Created? && custom != "" ==> r.0.code == custom
    ensures r.0.Created? && custom == "" ==> OverAlphabet(r.0.code) && (|r.0.code| == 6 || |r.0.code| == 8)
    ensures r.0 == Exhausted <==>
      IsValidUrl(parse(original)) && custom == "" && RandomCode(s, draws).None?
    ensures IsValidUrl(parse(original)) && custom != "" && custom !in s ==> r.0.Created?
    ensures IsValidUrl(parse(original)) && custom == "" && RandomCode(s, draws).Some? ==>
      r.0.Created? && r.0.code == RandomCode(s, draws).value
    ensures !r.0.Created? ==> r.1 == s
  {
    if !IsValidUrl(parse(original)) then
      (InvalidUrl, s)
    else if custom != "" then
      if custom in s then (CodeTaken, s)
      else (Created(custom, ShortLink(baseUrl, custom)), s[custom := Entry(original, initialHits)])
    else
      match RandomCode(s, draws)
      case None => (Exhausted, s)
      case Some(code) => (Created(code, ShortLink(baseUrl, code)), s[code := Entry(original, initialHits)])
  }

  /** The POST branch of `index`: read both fields (a missing one reads as empty), strip
      them, and submit. A created row's code is non-empty and its code and URL carry no
      surrounding whitespace. */
  function Create(s: Store, form: Form, parse: string -> Option<UrlParts>, baseUrl: string,
                  draws: seq<Pick>, initialHits: nat): (r: (CreateOutcome, Store))
    ensures forall c :: c in s ==> c in r.1 && r.1[c] == s[c]
    ensures !IsValidUrl(parse(FieldValue(form.originalUrl))) ==> r == (InvalidUrl, s)
    ensures r.0 == CodeTaken <==>
      && IsValidUrl(parse(FieldValue(form.originalUrl)))
      && FieldValue(form.customCode) != ""
      && FieldValue(form.customCode) in s
    ensures (&& IsValidUrl(parse(FieldValue(form.originalUrl)))
             && FieldValue(form.customCode) != ""
             && FieldValue(form.customCode) !in s) ==>
      r.0.Created? && r.0.code == FieldValue(form.customCode)
    ensures (IsValidUrl(parse(FieldValue(form.originalUrl))) && FieldValue(form.customCode) == "") ==>
      && (r.0 == Exhausted <==> RandomCode(s, draws).None?)
      && (RandomCode(s, draws).Some? ==> r.0.Created? && r.0.code == RandomCode(s, draws).value)
    ensures r.0.Created? ==> r.1 == s[r.0.code := Entry(FieldValue(form.originalUrl), initialHits)]
    ensures r.0.Created? ==>
      && r.0.code != ""
      && Text.Strip(r.0.code, Text.Whitespace) == r.0.code
      && r.0.code in r.1
      && Text.Strip(r.1[r.0.code].url, Text.Whitespace) == r.1[r.0.code].url
  {
    var original := FieldValue(form.originalUrl);
    var custom := FieldValue(form.customCode);
    StrippedField(form.originalUrl);
    StrippedField(form.customCode);
    SubmitKeepsStripped(s, original, custom, parse, baseUrl, draws, initialHits);
    Submit(s, original, custom, parse, baseUrl, draws, initialHits)
  }

  /** Submitting stripped values inserts a non-empty code and URL without surrounding
      whitespace. */
  lemma SubmitKeepsStripped(s: Store, original: string, custom: string, parse: string -> Option<UrlParts>,
                            baseUrl: string, draws: seq<Pick>, initialHits: nat)
    requires Text.Strip(original, Text.Whitespace) == original
    requires Text.Strip(custom, Text.Whitespace) == custom
    ensures var r := Submit(s, original, custom, parse, baseUrl, draws, initialHits);
      r.0.Created? ==>
        && r.0.code != ""
        && Text.Strip(r.0.code, Text.Whitespace) == r.0.code
        && r.0.code in r.1
        && Text.Strip(r.1[r.0.code].url, Text.Whitespace) == r.1[r.0.code].url
  {
    if IsValidUrl(parse(original)) && custom == "" {
      match RandomCode(s, draws)
      case Some(code) => AlnumCodeIsStripped(code);
      case None =>
    }
  }

  /** A field value is already stripped. */
  lemma StrippedField(field: Option<string>)
    ensures Text.Strip(FieldValue(field), Text.Whitespace) == FieldValue(field)
  {
    Text.StripIdempotent(field.GetOr(""), Text.Whitespace);
  }

  /** Codes drawn from the alphabet are not changed by stripping. */
  lemma AlnumCodeIsStripped(code: string)
    requires OverAlphabet(code)
    ensures Text.Strip(code, Text.Whitespace) == code
  {
    if code != [] {
      assert IsAlnum(code[0]) && IsAlnum(code[|code| - 1]);
    }
    Text.StripFixed(code, Text.Whitespace);
  }

  /** `redirect_code`: a known code redirects to its stored URL and, when the counter
      update succeeds (`incremented`), gains one hit; a failed update is swallowed and the
      redirect still happens. An unknown code is a 404 and changes nothing. */
  function Resolve(s: Store, code: string, incremented: bool): (r: (ResolveOutcome, Store))
    ensures code !in s ==> r == (NotFound, s)
    ensures code in s ==> r.0 == Redirect(s[code].url)
    ensures forall c :: c in r.1 <==> c in s
    ensures forall c :: c in s ==> r.1[c].url == s[c].url
    ensures code in s ==> r.1[code].hits == s[code].hits + (if incremented then 1 else 0)
    ensures forall c :: c in s && c != code ==> r.1[c] == s[c]
  {
    if code in s then
      var e := s[code];
      (Redirect(e.url), if incremented then s[code := e.(hits := e.hits + 1)] else s)
    else
      (NotFound, s)
  }
}

=== FILE: shortener_props.dfy ===
/** Properties that relate several store operations: what a created link resolves to,
    what repeated visits do, and the invariants every request sequence keeps. */
module ShortenerProps {
  import opened Optional
  import Text
  import opened Codes
  import opened Urls
  import opened Shortener

  /** What every row of the table satisfies: its code is non-empty and carries no
      surrounding whitespace, and its URL is stripped and passes `is_valid_url`. */
  ghost predicate WellFormed(s: Store, parse: string -> Option<UrlParts>) {
    forall c :: c in s ==>
      && c != ""
      && Text.Strip(c, Text.Whitespace) == c
      && Text.Strip(s[c].url, Text.Whitespace) == s[c].url
      && IsValidUrl(parse(s[c].url))
  }

  /** Whitespace typed around the URL or the custom code makes no difference to a
      submission. */
  lemma CreateIgnoresPadding(s: Store, url: string, code: string, pre: string, post: string,
                             parse: string -> Option<UrlParts>, baseUrl: string, draws: seq<Pick>,
                             initialHits: nat)
    requires Text.AllIn(pre, Text.Whitespace) && Text.AllIn(post, Text.Whitespace)
    ensures Create(s, Form(Some(pre + url + post), Some(code)), parse, baseUrl, draws, initialHits)
         == Create(s, Form(Some(url), Some(code)), parse, baseUrl, draws, initialHits)
    ensures Create(s, Form(Some(url), Some(pre + code + post)), parse, baseUrl, draws, initialHits)
         == Create(s, Form(Some(url), Some(code)), parse, baseUrl, draws, initialHits)
  {
    Text.StripIgnoresPadding(pre, url, post, Text.Whitespace);
    Text.StripIgnoresPadding(pre, code, post, Text.Whitespace);
  }

  /** Non-empty codes drawn from the alphabet travel through a link unchanged. */
  lemma AlnumIsRoutable(code: string)
    requires OverAlphabet(code) && code != []
    ensures Routable(code)
  {
    forall i | 0 <= i < |code|
      ensures code[i] !in {'/', '?', '#', '%', '\\'} && code[i] >= ' '
    {
      assert IsAlnum(code[i]);
    }
    assert IsAlnum(code[0]);
  }

  /** A successful submission makes its code resolve to the submitted URL, and the
      first visit starts from the initial hit count. */
  lemma SubmitThenResolve(s: Store, original: string, custom: string, parse: string -> Option<UrlParts>,
                          baseUrl: string, draws: seq<Pick>, initialHits: nat, incremented: bool)
    requires IsValidUrl(parse(original))
    requires custom != "" ==> custom !in s
    requires custom == "" ==> RandomCode(s, draws).Some?
    ensures var (out, s') := Submit(s, original, custom, parse, baseUrl, draws, initialHits);
      var (visit, s'') := Resolve(s', out.code, incremented);
      && out.Created?
      && visit == Redirect(original)
      && s''[out.code].hits == initialHits + (if incremented then 1 else 0)
  {
  }

  /** Following the short link handed back for a random code binds the route to that
      code, so it redirects to the submitted URL (for a base URL with no query or
      fragment of its own). */
  lemma RandomLinkResolves(s: Store, original: string, parse: string -> Option<UrlParts>,
                           baseUrl: string, draws: seq<Pick>, initialHits: nat, incremented: bool)
    requires IsValidUrl(parse(original))
    requires RandomCode(s, draws).Some?
    requires '?' !in baseUrl && '#' !in baseUrl
    ensures var (out, s') := Submit(s, original, "", parse, baseUrl, draws, initialHits);
      && out.Created?
      && RoutedCode(out.short) == out.code
      && Resolve(s', RoutedCode(out.short), incremented).0 == Redirect(original)
  {
    var (out, s') := Submit(s, original, "", parse, baseUrl, draws, initialHits);
    AlnumIsRoutable(out.code);
    ShortLinkRoundTrip(baseUrl, out.code);
  }

  /** Resolving the same code twice yields the same answer both times; for a known code
      the counter grows by the number of successful updates and nothing else changes. */
  lemma ResolveTwice(s: Store, code: string, first: bool, second: bool)
    ensures var (o1, s1) := Resolve(s, code, first);
      var (o2, s2) := Resolve(s1, code, second);
      && o1 == o2
      && (code in s ==>
            && s2.Keys == s.Keys
            && s2[code].url == s[code].url
            && s2[code].hits == s[code].hits + (if first then 1 else 0) + (if second then 1 else 0))
      && (code !in s ==> s2 == s)
  {
  }

  /** Inserting a well-formed row keeps the table well formed. */
  lemma InsertPreservesWellFormed(s: Store, parse: string -> Option<UrlParts>, code: string, url: string, hits: nat)
    requires WellFormed(s, parse)
    requires code != "" && Text.Strip(code, Text.Whitespace) == code
    requires Text.Strip(url, Text.Whitespace) == url && IsValidUrl(parse(url))
    ensures WellFormed(s[code := Entry(url, hits)], parse)
  {
  }

  /** Submitting keeps the table well formed. */
  lemma CreatePreservesWellFormed(s: Store, form: Form, parse: string -> Option<UrlParts>, baseUrl: string,
                                  draws: seq<Pick>, initialHits: nat)
    requires WellFormed(s, parse)
    ensures WellFormed(Create(s, form, parse, baseUrl, draws, initialHits).1, parse)
  {
    var r := Create(s, form, parse, baseUrl, draws, initialHits);
    if r.0.Created? {
      InsertPreservesWellFormed(s, parse, r.0.code, FieldValue(form.originalUrl), initialHits);
    }
  }

  /** A table with the same codes and the same URLs as a well-formed one is well formed. */
  lemma SameUrlsWellFormed(s: Store, s': Store, parse: string -> Option<UrlParts>)
    requires WellFormed(s, parse)
    requires forall c :: c in s' ==> c in s && s'[c].url == s[c].url
    ensures WellFormed(s', parse)
  {
    forall c | c in s'
      ensures c != "" && Text.Strip(c, Text.Whitespace) == c
      ensures Text.Strip(s'[c].url, Text.Whitespace) == s'[c].url && IsValidUrl(parse(s'[c].url))
    {
      assert c in s;
    }
  }

  /** Visiting keeps the table well formed. */
  lemma ResolvePreservesWellFormed(s: Store, parse: string -> Option<UrlParts>, code: string, incremented: bool)
    requires WellFormed(s, parse)
    ensures WellFormed(Resolve(s, code, incremented).1, parse)
  {
    SameUrlsWellFormed(s, Resolve(s, code, incremented).1, parse);
  }

  /** One request to the service: a form submission with the random draws it may use,
      or a visit to `/<code>` with whether the counter update succeeded. */
  datatype Request =
    | Post(form: Form, draws: seq<Pick>)
    | Get(code: string, incremented: bool)

  /** The table after serving one request. */
  function Step(s: Store, request: Request, parse: string -> Option<UrlParts>, baseUrl: string,
                initialHits: nat): Store
  {
    match request
    case Post(form, draws) => Create(s, form, parse, baseUrl, draws, initialHits).1
    case Get(code, incremented) => Resolve(s, code, incremented).1
  }

  /** One request keeps every existing row, its URL, and at least its hit count. */
  lemma StepKeeps(s: Store, request: Request, parse: string -> Option<UrlParts>, baseUrl: string,
                  initialHits: nat, code: string)
    requires code in s
    ensures var s' := Step(s, request, parse, baseUrl, initialHits);
      code in s' && s'[code].url == s[code].url && s'[code].hits >= s[code].hits
  {
  }

  /** The table after serving `requests` one after another. */
  function Serve(s: Store, requests: seq<Request>, parse: string -> Option<UrlParts>, baseUrl: string,
                 initialHits: nat): Store
    decreases |requests|
  {
    if requests == [] then s
    else Serve(Step(s, requests[0], parse, baseUrl, initialHits), requests[1..], parse, baseUrl, initialHits)
  }

  /** No request sequence deletes a row or rewrites its URL, and hit counts only grow. */
  lemma {:induction false} ServeNeverForgets(s: Store, requests: seq<Request>, parse: string -> Option<UrlParts>,
                                             baseUrl: string, initialHits: nat, code: string)
    requires code in s
    ensures var s' := Serve(s, requests, parse, baseUrl, initialHits);
      code in s' && s'[code].url == s[code].url && s'[code].hits >= s[code].hits
    decreases |requests|
  {
    if requests != [] {
      StepKeeps(s, requests[0], parse, baseUrl, initialHits, code);
      ServeNeverForgets(Step(s, requests[0], parse, baseUrl, initialHits), requests[1..], parse, baseUrl,
                        initialHits, code);
    }
  }

  /** Every request sequence keeps the table well formed. */
  lemma {:induction false} ServePreservesWellFormed(s: Store, requests: seq<Request>,
                                                    parse: string -> Option<UrlParts>,
                                                    baseUrl: string, initialHits: nat)
    requires WellFormed(s, parse)
    ensures WellFormed(Serve(s, requests, parse, baseUrl, initialHits), parse)
    decreases |requests|
  {
    if requests != [] {
      match requests[0] {
        case Post(form, draws) => CreatePreservesWellFormed(s, form, parse, baseUrl, draws, initialHits);
        case Get(c, incremented) => ResolvePreservesWellFormed(s, parse, c, incremented);
      }
      ServePreservesWellFormed(Step(s, requests[0], parse, baseUrl, initialHits), requests[1..], parse, baseUrl,
                               initialHits);
    }
  }
}

=== FILE: text.dfy ===
/** String trimming as Python's `str.strip` and `str.rstrip` perform it: the form inputs
    are stripped of surrounding whitespace and the base URL of its trailing slashes
    (app.py lines 59-60 and 86). */
module Text {

  /** The characters Python's `str.isspace` accepts, which `str.strip()` with no
      argument removes from both ends. */
  const Whitespace: set<char> := {
    '\t', '\n', '\U{B}', '\U{C}', '\r',
    '\U{1C}', '\U{1D}', '\U{1E}', '\U{1F}', ' ',
    '\U{85}', '\U{A0}', '\U{1680}',
    '\U{2000}', '\U{2001}', '\U{2002}', '\U{2003}', '\U{2004}', '\U{2005}',
    '\U{2006}', '\U{2007}', '\U{2008}', '\U{2009}', '\U{200A}',
    '\U{2028}', '\U{2029}', '\U{202F}', '\U{205F}', '\U{3000}'
  }

  /** Every character of `s` is one of `cs`. */
  predicate AllIn(s: string, cs: set<char>) {
    forall i :: 0 <= i < |s| ==> s[i] in cs
  }

  /** `s` with its longest prefix made of characters in `cs` removed (`s.lstrip(cs)`). */
  function TrimStart(s: string, cs: set<char>): (r: string)
    ensures |r| <= |s| && r == s[|s| - |r|..]
    ensures AllIn(s[..|s| - |r|], cs)
    ensures r == [] || r[0] !in cs
  {
    if s != [] && s[0] in cs then
      var t := s[1..];
      var r := TrimStart(t, cs);
      TrimStartStep(s, t, r, cs);
      r
    else
      s
  }

  /** One step of left-trimming: a kept suffix of `s[1..]` is a kept suffix of `s`. */
  lemma TrimStartStep(s: string, t: string, r: string, cs: set<char>)
    requires s != [] && s[0] in cs && t == s[1..]
    requires |r| <= |t| && r == t[|t| - |r|..] && AllIn(t[..|t| - |r|], cs)
    ensures |r| <= |s| && r == s[|s| - |r|..]
    ensures AllIn(s[..|s| - |r|], cs)
  {
    assert s[..|s| - |r|] == [s[0]] + t[..|t| - |r|];
  }

  /** `s` with its longest suffix made of characters in `cs` removed (`s.rstrip(cs)`). */
  function TrimEnd(s: string, cs: set<char>): (r: string)
    ensures |r| <= |s| && r == s[..|r|]
    ensures AllIn(s[|r|..], cs)
    ensures r == [] || r[|r| - 1] !in cs
  {
    if s != [] && s[|s| - 1] in cs then
      var r := TrimEnd(s[..|s| - 1], cs);
      assert s[..|s| - 1][..|r|] == s[..|r|];
      assert s[|r|..] == s[..|s| - 1][|r|..] + [s[|s| - 1]];
      r
    else
      s
  }

  /** `s` with characters of `cs` removed from both ends (`s.strip(cs)`). */
  function Strip(s: string, cs: set<char>): (r: string)
    ensures |r| <= |s|
    ensures r == [] || (r[0] !in cs && r[|r| - 1] !in cs)
    ensures r == [] <==> AllIn(s, cs)
    ensures exists i :: Interior(s, r, i, cs)
  {
    var e := TrimEnd(s, cs);
    var r := TrimStart(e, cs);
    InteriorOfTrimmed(s, e, r, cs);
    InteriorEmpty(s, r, |e| - |r|, cs);
    r
  }

  /** `r` occurs in `s` at position `i`, with only characters of `cs` around it. */
  predicate Interior(s: string, r: string, i: int, cs: set<char>) {
    && 0 <= i <= |s| - |r| && r == s[i..i + |r|]
    && AllIn(s[..i], cs) && AllIn(s[i + |r|..], cs)
  }

  /** A suffix `r` of a prefix `e` of `s` is interior when what is cut off on either
      side consists of characters of `cs`. */
  lemma InteriorOfTrimmed(s: string, e: string, r: string, cs: set<char>)
    requires |e| <= |s| && e == s[..|e|] && AllIn(s[|e|..], cs)
    requires |r| <= |e| && r == e[|e| - |r|..] && AllIn(e[..|e| - |r|], cs)
    ensures Interior(s, r, |e| - |r|, cs)
  {
    var i := |e| - |r|;
    assert s[..i] == e[..i];
    assert s[i..i + |r|] == e[i..];
  }

  /** An interior part that does not start with a character of `cs` is empty exactly
      when the whole string consists of characters of `cs`. */
  lemma InteriorEmpty(s: string, r: string, i: int, cs: set<char>)
    requires Interior(s, r, i, cs) && (r == [] || r[0] !in cs)
    ensures r == [] <==> AllIn(s, cs)
  {
    if r == [] {
      assert s == s[..i] + s[i..];
    } else {
      assert s[i] == r[0];
    }
  }

  /** Every prefix of an all-`cs` string is all-`cs`. */
  lemma AllInPrefix(s: string, k: nat, cs: set<char>)
    requires AllIn(s, cs) && k <= |s|
    ensures AllIn(s[..k], cs)
  {
  }

  /** A string whose ends are not in `cs` is left unchanged by stripping. */
  lemma StripFixed(s: string, cs: set<char>)
    requires s == [] || (s[0] !in cs && s[|s| - 1] !in cs)
    ensures Strip(s, cs) == s
  {
  }

  /** Stripping twice is the same as stripping once. */
  lemma StripIdempotent(s: string, cs: set<char>)
    ensures Strip(Strip(s, cs), cs) == Strip(s, cs)
  {
    StripFixed(Strip(s, cs), cs);
  }

  /** Characters of `cs` added around a string do not change what stripping yields. */
  lemma {:induction false} StripIgnoresPadding(pre: string, s: string, post: string, cs: set<char>)
    requires AllIn(pre, cs) && AllIn(post, cs)
    ensures Strip(pre + s + post, cs) == Strip(s, cs)
  {
    TrimEndIgnoresSuffix(pre + s, post, cs);
    assert pre + s + post == (pre + s) + post;
    if TrimEnd(s, cs) == [] {
      TrimEndOfAllIn(pre, s, cs);
    } else {
      TrimEndKeepsPrefix(pre, s, cs);
      TrimStartIgnoresPrefix(pre, TrimEnd(s, cs), cs);
    }
  }

  lemma {:induction false} TrimEndIgnoresSuffix(s: string, post: string, cs: set<char>)
    requires AllIn(post, cs)
    ensures TrimEnd(s + post, cs) == TrimEnd(s, cs)
    decreases |post|
  {
    if post != [] {
      var shorter := post[..|post| - 1];
      assert (s + post)[..|s + post| - 1] == s + shorter;
      TrimEndIgnoresSuffix(s, shorter, cs);
    } else {
      assert s + post == s;
    }
  }

  lemma {:induction false} TrimStartIgnoresPrefix(pre: string, s: string, cs: set<char>)
    requires AllIn(pre, cs)
    ensures TrimStart(pre + s, cs) == TrimStart(s, cs)
    decreases |pre|
  {
    if pre != [] {
      assert (pre + s)[1..] == pre[1..] + s;
      TrimStartIgnoresPrefix(pre[1..], s, cs);
    } else {
      assert pre + s == s;
    }
  }

  /** When `s` keeps something after right-trimming, a prefix does not change where the cut is. */
  lemma TrimEndKeepsPrefix(pre: string, s: string, cs: set<char>)
    requires TrimEnd(s, cs) != []
    ensures TrimEnd(pre + s, cs) == pre + TrimEnd(s, cs)
  {
    var e := TrimEnd(s, cs);
    var t := pre + s;
    assert t == (pre + e) + s[|e|..];
    TrimEndIgnoresSuffix(pre + e, s[|e|..], cs);
    assert (pre + e)[|pre + e| - 1] == e[|e| - 1];
  }

  /** When `s` right-trims to nothing, so does `pre + s` for an all-`cs` prefix. */
  lemma TrimEndOfAllIn(pre: string, s: string, cs: set<char>)
    requires AllIn(pre, cs) && TrimEnd(s, cs) == []
    ensures TrimStart(TrimEnd(pre + s, cs), cs) == []
  {
    assert s[|TrimEnd(s, cs)|..] == s;
    TrimEndIgnoresSuffix(pre, s, cs);
    AllInPrefix(pre, |TrimEnd(pre, cs)|, cs);
  }
}

=== FILE: urls.dfy ===
/** URL acceptance (app.py lines 48-53), construction of the shareable short link
    (app.py line 86), and the code the route `/<code>` (app.py line 91) binds when that
    link is followed. */
module Urls {
  import opened Optional
  import Text

  /** The two components of `urllib.parse.urlparse`'s result that validation reads.
      The parser itself is not modelled: callers pass its result, with `None` standing
      for a parse that raised an exception. */
  datatype UrlParts = UrlParts(scheme: string, netloc: string)

  /** `is_valid_url`: the scheme is `http` or `https` and the network location is
      non-empty; a parse failure is caught and reported as "not valid". */
  predicate IsValidUrl(parsed: Option<UrlParts>)
    ensures parsed.None? ==> !IsValidUrl(parsed)
    ensures IsValidUrl(parsed) <==>
      parsed.Some? && parsed.value.scheme in {"http", "https"} && |parsed.value.netloc| > 0
  {
    match parsed
    case None => false
    case Some(p) => (p.scheme == "http" || p.scheme == "https") && p.netloc != ""
  }

  /** The base URL with every trailing `/` removed, a `/`, then the code. */
  function ShortLink(baseUrl: string, code: string): (link: string)
    ensures |link| > |code| && link[|link| - |code| - 1..] == "/" + code
    ensures var root := link[..|link| - |code| - 1];
      && |root| <= |baseUrl| && root == baseUrl[..|root|]
      && Text.AllIn(baseUrl[|root|..], {'/'})
      && (root == [] || root[|root| - 1] != '/')
  {
    var root := Text.TrimEnd(baseUrl, {'/'});
    assert (root + "/" + code)[..|root|] == root;
    root + "/" + code
  }

  /** The last path segment of a string: everything after its final `/` (all of it when
      there is no `/`). */
  function LastSegment(link: string): (segment: string)
    ensures |segment| <= |link| && segment == link[|link| - |segment|..]
    ensures '/' !in segment
    ensures segment == link || link[|link| - |segment| - 1] == '/'
  {
    if link == [] || link[|link| - 1] == '/' then []
    else
      var init := link[..|link| - 1];
      var seg := LastSegment(init);
      assert seg == init || link[|link| - |seg| - 2] == init[|init| - |seg| - 1];
      seg + [link[|link| - 1]]
  }

  /** The part of a link a server routes on: everything before the first `?` (the query)
      or `#` (the fragment). */
  function BeforeQuery(link: string): (p: string)
    ensures |p| <= |link| && p == link[..|p|]
    ensures '?' !in p && '#' !in p
    ensures p == link || link[|p|] in {'?', '#'}
  {
    if link == [] || link[0] == '?' || link[0] == '#' then []
    else [link[0]] + BeforeQuery(link[1..])
  }

  /** What the route `/<code>` of app.py line 91 binds to `code` when a link is followed
      as written: the last segment of the link's path, the query and fragment removed.
      The client's rewriting of the link (`\` read as `/`, tabs and line breaks deleted)
      and the server's percent-decoding of the path are not modelled; `Routable` codes
      are the ones neither of them changes. */
  function RoutedCode(link: string): (code: string)
    ensures '/' !in code && '?' !in code && '#' !in code
    ensures |code| <= |link|
  {
    LastSegment(BeforeQuery(link))
  }

  /** A code that travels through a link unchanged: it contains none of the characters
      that end a path segment (`/`, and `\`, which a browser reads as `/`), start a query
      or fragment (`?`, `#`) or start a percent-escape (`%`); it holds no control
      character, which a browser deletes (tab, line breaks) or trims from the end of the
      link; it does not end in a space, which a browser trims as well; it is not empty,
      since the rule `/<code>` never binds an empty segment; and it is not a dot segment
      a client would resolve away. */
  predicate Routable(code: string) {
    && code != [] && code[|code| - 1] != ' '
    && '/' !in code && '?' !in code && '#' !in code && '%' !in code && '\\' !in code
    && (forall c :: c in code ==> c >= ' ')
    && code != "." && code != ".."
  }

  /** A routable code is what the route binds when its short link is followed, provided
      the base URL carries no query or fragment of its own. */
  lemma {:induction false} ShortLinkRoundTrip(baseUrl: string, code: string)
    requires Routable(code)
    requires '?' !in baseUrl && '#' !in baseUrl
    ensures RoutedCode(ShortLink(baseUrl, code)) == code
  {
    var root := Text.TrimEnd(baseUrl, {'/'});
    var link := root + "/" + code;
    assert '?' !in root && '#' !in root by {
      assert root == baseUrl[..|root|];
    }
    BeforeQueryOfPlain(link, []);
    assert link + [] == link;
    SegmentAfterSlash(root, code);
  }

  /** A custom code holding a `?` does not lead back to itself: its short link routes to
      the part of the code before the `?`. */
  lemma {:induction false} QueryCodeRoutesToPrefix(baseUrl: string, pre: string, post: string)
    requires '/' !in pre && '?' !in pre && '#' !in pre
    requires '?' !in baseUrl && '#' !in baseUrl
    ensures RoutedCode(ShortLink(baseUrl, pre + "?" + post)) == pre
    ensures pre + "?" + post != pre
  {
    var root := Text.TrimEnd(baseUrl, {'/'});
    assert '?' !in root && '#' !in root by {
      assert root == baseUrl[..|root|];
    }
    var head := root + "/" + pre;
    var link := root + "/" + (pre + "?" + post);
    assert link == head + ("?" + post);
    BeforeQueryOfPlain(head, "?" + post);
    assert BeforeQuery("?" + post) == [];
    assert head + [] == head;
    SegmentAfterSlash(root, pre);
    assert |pre + "?" + post| > |pre|;
  }

  /** A prefix free of `?` and `#` passes through `BeforeQuery` whole. */
  lemma {:induction false} BeforeQueryOfPlain(a: string, b: string)
    requires '?' !in a && '#' !in a
    ensures BeforeQuery(a + b) == a + BeforeQuery(b)
    decreases |a|
  {
    if a == [] {
      assert a + b == b;
    } else {
      assert a == [a[0]] + a[1..];
      assert (a + b)[1..] == a[1..] + b;
      BeforeQueryOfPlain(a[1..], b);
    }
  }

  lemma {:induction false} SegmentAfterSlash(root: string, code: string)
    requires '/' !in code
    ensures LastSegment(root + "/" + code) == code
    decreases |code|
  {
    var link := root + "/" + code;
    if code == [] {
      assert link[|link| - 1] == '/';
    } else {
      var shorter := code[..|code| - 1];
      var last := code[|code| - 1];
      assert last in code;
      assert link == (root + "/" + shorter) + [last];
      assert link[..|link| - 1] == root + "/" + shorter;
      assert LastSegment(link) == LastSegment(root + "/" + shorter) + [last];
      SegmentAfterSlash(root, shorter);
      assert code == shorter + [last];
    }
  }

  /** Trailing slashes on the base URL never change the short link. */
  lemma ShortLinkIgnoresTrailingSlash(baseUrl: string, code: string)
    ensures ShortLink(baseUrl + "/", code) == ShortLink(baseUrl, code)
  {
    assert (baseUrl + "/")[..|baseUrl|] == baseUrl;
  }
}
